=== FILE: README.md ===
# Bebop driver coordination core, modelled in Dafny

This project models the coordination logic of the `Bebop` driver class in
`bebop_autonomy/src/bebop.cpp`. The class sits between a quadcopter's vendor
SDK (ARDISCOVERY / ARCONTROLLER) and ROS. The model covers:

- the connection lifecycle: `Connect`, `Cleanup` and `Disconnect`, with the
  state-confirmation semaphore;
- the gate in front of every vehicle command (`ThrowOnInternalError`,
  `ThrowOnCtrlError`), and `Takeoff`, `Land`, `Move` and `MoveCamera`;
- the encoding in `Move`: the hover override and the roll/pitch flag;
- the three SDK callbacks. The state callback posts the semaphore. The
  command callback routes into the dispatch table. The frame callback fills
  a single-slot, latest-value-wins frame buffer, which
  `GetFrontCameraFrame` drains.

The model is sequential and functional. The driver is an immutable
`Bebop.Driver` record. Every public call and every callback is a pure
transition on it. Each vendor SDK call is replaced by the status it returns
(`Sdk.Status`: `Ok` or `Error(code)`). Those statuses arrive as inputs in an
environment record (`ConnectEnv`, `CleanupEnv`) or as a parameter. The H.264
decoder is a function value from raw frame descriptors to decoded images
(`Frames.Decoder`). The ROS clock is a `Time` parameter.

The semaphore is a counter. A wait takes one count. A wait on a zero count
is a call that never returns, written `Blocked`. The state callbacks that
the SDK delivers while a caller waits are part of the environment
(`startEvents`, `stopEvents`). The wait inside `GetFrontCameraFrame` is the
precondition `slot.available` on `Frames.Read`. In the session model,
reading with no frame available is a step that never returns.

Modules:
- `Sdk`: statuses, device states, `Option`, bytes.
- `Frames`: the frame slot.
- `Dispatch`: the command callback and its table.
- `Piloting`: the PCMD encoding.
- `Bebop`: the driver record and its operations.
- `Sessions`: arbitrary interleavings of calls and callbacks starting from
  a freshly constructed driver, and the invariant that holds between them.

Some behaviour of the code is easy to misread. The model follows the code:
- `Disconnect` never clears `is_connected_`. A second `Disconnect` therefore
  returns true again and destroys the semaphore a second time
  (`Bebop.SecondDisconnectStillTrue`). It is not idempotent in the sense of
  "true, then false".
- A `Connect` on a connected driver throws "Already inited", but it first
  runs `Cleanup`. That tears down the live session while leaving the flag
  raised (`Bebop.ReconnectTearsDown`).
- A failure of the Wi-Fi initialisation, or of controller creation, leaves
  the discovery device allocated. `Cleanup` never frees `device_ptr_`, so a
  failed `Connect` can leave this handle behind
  (`Bebop.WifiFailureKeepsDiscoveryDevice`).
- `Disconnect` is gated by the connected flag, not by the presence of a
  session.
- The command callback passes on the arguments of the dictionary's head
  element (`element_dict_ptr->arguments`). It does not use the element it
  found under the single key. The model keeps this: a dictionary is a
  non-empty sequence, and its head is index 0.

## Model

| member | source | states |
|---|---|---|
| `Bebop.Initial` | bebop_autonomy/src/bebop.cpp:113-120 | A new driver is not connected, holds no controller, discovery device or semaphore, stores the MAX device state with error OK, has an empty dispatch table, so command callbacks are ignored until a Connect installs one, and has an empty frame slot. |
| `Bebop.SemWait` | bebop_autonomy/src/bebop.cpp:185 | A semaphore wait returns only on a positive count, takes exactly one count and changes nothing else. |
| `Bebop.StateChanged` | bebop_autonomy/src/bebop.cpp:25-39 | The state callback adds exactly one to the semaphore for RUNNING or STOPPED. For every other state it leaves the driver unchanged, and it never touches any field but the count. |
| `Bebop.Deliver` | bebop_autonomy/src/bebop.cpp:30-37 | Any run of state callbacks raises the count by exactly the number of RUNNING/STOPPED states among them (reference count `Posts`), and changes nothing else. |
| `Bebop.Cleanup` | bebop_autonomy/src/bebop.cpp:213-231 | Cleanup never throws. When it returns, the controller is gone and the semaphore is destroyed. It requests a stop iff a controller exists, the state query was OK and the state is not STOPPED. It waits iff that stop returned OK. It blocks forever iff it waits with no count and no confirming callback. The count drops by one only when it waited. It stores the queried device state iff a controller existed, and as last error the stop's status when it requested a stop, else the query's status (nothing when there was no controller). The connected flag, discovery device, table and frame slot are untouched. |
| `Bebop.Abort` | bebop_autonomy/src/bebop.cpp:203-207 | A throw inside Connect runs Cleanup and, when Cleanup returns, rethrows the same failure with exactly the driver Cleanup leaves (no controller, no semaphore); when Cleanup blocks, so does the throw. |
| `Bebop.Connect` | bebop_autonomy/src/bebop.cpp:139-211 | Connect returns normally iff the driver was not connected and every step succeeds, including at least one confirming callback delivered until the wait ends, an OK state query reporting RUNNING, and OK video enabling. On success the flag is raised, the controller is held and the discovery device released. The stored state is RUNNING with error OK, the spare semaphore count is the confirmations minus one, and the given table is installed. Any throw leaves no controller, a destroyed semaphore, the dispatch table and the connected flag as they were. On an already-connected driver the call is exactly Cleanup followed by the "Already inited" throw (`Bebop.Abort`). Otherwise the failure thrown is that of the first failing step in source order (reference `FirstFailure`). After such a throw the discovery device is still held iff its creation succeeded but the Wi-Fi initialisation or the controller creation failed. After a throw that follows controller creation, the stored state and error are those Cleanup's state query and stop request leave. After an earlier throw on a driver holding no controller, the state is unchanged and the error is the controller creation's status when that step ran, else unchanged. The frame slot is untouched. |
| `Bebop.Disconnect` | bebop_autonomy/src/bebop.cpp:233-239 | Disconnect never throws. When not connected it returns false and changes nothing. When connected it returns true exactly when Cleanup returns, with exactly the driver Cleanup leaves: no controller, no semaphore, and the connected flag still raised. |
| `Bebop.InternalCheck` | bebop_autonomy/src/bebop.cpp:325-331 | The internal check passes iff the driver is flagged connected and holds a controller; otherwise it fails with the caller's message. |
| `Bebop.IssueCommand` | bebop_autonomy/src/bebop.cpp:333-339 | A command is sent iff the internal check passes; a refusal carries the caller's message; a sent command is the given one with the SDK's status, and the call succeeds iff it was sent and that status is OK. |
| `Bebop.Takeoff` | bebop_autonomy/src/bebop.cpp:241-247 | Takeoff sends the take-off command iff connected with a controller (else it is refused with "Takeoff failed"), and succeeds iff additionally the SDK returns OK. |
| `Bebop.Land` | bebop_autonomy/src/bebop.cpp:249-255 | Land sends the landing command iff connected with a controller (else it is refused with "Land failed"), and succeeds iff additionally the SDK returns OK. |
| `Bebop.Move` | bebop_autonomy/src/bebop.cpp:257-288 | Move is refused with "Move failure" unless connected with a controller. A sent command is the all-zero hover PCMD iff all four axes are below 0.001 in magnitude. Otherwise it is PCMD(flag, roll*100, pitch*100, yaw*100, gaz*100, 0) with flag = (abs(roll) >= 0.001 or abs(pitch) >= 0.001). A sent command carries the SDK's status, and success additionally needs it to be OK. |
| `Bebop.MoveCamera` | bebop_autonomy/src/bebop.cpp:290-298 | MoveCamera sends the camera orientation iff connected with a controller (else it is refused with "Camera Move Failure"), and succeeds iff additionally the SDK returns OK. |
| `Bebop.CommandReceived` | bebop_autonomy/src/bebop.cpp:50-66 | The command callback changes only the driver's dispatch table, as the dispatch routing says. |
| `Bebop.FrameReceived` | bebop_autonomy/src/bebop.cpp:88-109 | The frame callback changes only the driver's frame slot, as the slot's receive step says. |
| `Bebop.SecondDisconnectStillTrue` | bebop_autonomy/src/bebop.cpp:233-239 | After a Disconnect that returned, a second Disconnect also returns true and only destroys the semaphore again. Takeoff after it is still refused, through the missing controller. |
| `Bebop.ReconnectTearsDown` | bebop_autonomy/src/bebop.cpp:141-206 | Connect on a connected driver throws "Already inited" with exactly the driver Cleanup leaves. The flag stays raised but commands are refused. |
| `Bebop.RetryAfterFailedConnect` | bebop_autonomy/src/bebop.cpp:139-211 | After any failed Connect on a driver that was not connected, a Connect whose steps all succeed goes through. |
| `Bebop.WifiFailureKeepsDiscoveryDevice` | bebop_autonomy/src/bebop.cpp:148-168 | When the Wi-Fi initialisation fails, Connect throws the discovery failure and the discovery device is still held afterwards. |
| `Bebop.NoConfirmationBlocksConnect` | bebop_autonomy/src/bebop.cpp:182-185 | When every step up to Start succeeds but no RUNNING/STOPPED callback arrives, Connect never returns. |
| `Piloting.MoveCommand` | bebop_autonomy/src/bebop.cpp:262-287 | The PCMD is the hover command iff all four axes are negligible. Its flag holds iff abs(roll) or abs(pitch) reaches 0.001. Any other command carries the axes times 100, in the order roll, pitch, yaw, gaz, followed by 0. |
| `Piloting.NegligibleIntentIsHover` | bebop_autonomy/src/bebop.cpp:263-275 | Any intent whose axes are all below 0.001 (e.g. roll 0.0005) encodes exactly as Move(0,0,0,0), the hover command. |
| `Piloting.OnlyHoverIsAllZero` | bebop_autonomy/src/bebop.cpp:266-287 | An encoded PCMD has all four axes zero iff it is the hover command. |
| `Frames.Forced` | bebop_autonomy/src/bebop.cpp:90-91 | The descriptor given to the decoder keeps the payload and has size 640 x 368. |
| `Frames.Receive` | bebop_autonomy/src/bebop.cpp:82-110 | A NULL frame or a failed decode leaves the slot unchanged. A successful decode of the 640 x 368 descriptor raises the available flag and makes the decoded image current, whether or not the previous one was read. |
| `Frames.Read` | bebop_autonomy/src/bebop.cpp:300-323 | Once a frame is available, a read returns a copy of the current image of exactly width * height * 3 bytes with its width and height. It clears the flag and keeps the image. |
| `Frames.ReceiveAllKeepsLatest` | bebop_autonomy/src/bebop.cpp:93-109 | After any run of frame callbacks the slot holds exactly the last successfully decoded frame, flagged available (reference definition `LastDecoded`). If none decoded, the slot is unchanged. |
| `Frames.SecondFrameWins` | bebop_autonomy/src/bebop.cpp:95-108 | Two successful decodes before a read: the read returns only the second frame's pixels. |
| `Frames.ReadAfterReceiveHasForcedSize` | bebop_autonomy/src/bebop.cpp:88-91 | With a decoder that reports the size it is asked for, a read after a successful callback yields a 640 x 368 frame of 706560 bytes. |
| `Dispatch.Receive` | bebop_autonomy/src/bebop.cpp:41-69 | The command callback keeps the table's keys and never changes a handler under another key. It changes nothing unless the dictionary is non-NULL and holds the single key and `cmd_key` is registered. In that case the handler under `cmd_key` records the head element's arguments and the time. |
| `Dispatch.IgnoredCallbacks` | bebop_autonomy/src/bebop.cpp:54-67 | A NULL dictionary, a dictionary without the single key, or an unregistered key leaves the table unchanged. |
| `Dispatch.DistinctKeysCommute` | bebop_autonomy/src/bebop.cpp:61-66 | Callbacks for two different command keys commute. |
| `Sessions.RunKeepsInv` | bebop_autonomy/src/bebop.cpp:139-239 | Across any interleaving of calls and callbacks, this holds between steps: a held controller implies the flag is raised, the semaphore is live, the stored state is RUNNING with error OK, and the discovery device is released. |
| `Sessions.SentCommandsFindDeviceRunning` | bebop_autonomy/src/bebop.cpp:241-247 | In every session from a fresh driver, a Takeoff that reaches the SDK finds the device confirmed RUNNING, a live semaphore and no discovery device. |
| `Sessions.CleanupWaitsOnLiveSemaphore` | bebop_autonomy/src/bebop.cpp:216-226 | In every session from a fresh driver, between calls a held controller comes with a live semaphore, so the Cleanup run by Disconnect, or by Connect on a connected driver, never waits on a destroyed semaphore. |
| `Sessions.DisconnectKeepsRunningState` | bebop_autonomy/src/bebop.cpp:213-239 | From a reachable connected state, a Disconnect whose state query reports RUNNING, whose stop succeeds and whose STOPPED confirmation arrives returns with no controller while the stored device state is still RUNNING. |
| `Sessions.NoCommandBeforeConnect` | bebop_autonomy/src/bebop.cpp:325-331 | In a session from a driver that is not connected, with no Connect whose steps all succeed, the driver stays unconnected and Takeoff and Land are refused before anything is sent. |

## Left out

- The vendor SDK (ARDISCOVERY, ARCONTROLLER, ARSAL). Each call is reduced to the status it returns. Two behaviours of the SDK are assumed: `ARDISCOVERY_Device_New` and `ARCONTROLLER_Device_New` leave a NULL handle when they report an error.
- Threads, the frame mutex, the condition variable and real semaphore blocking. Callbacks are atomic steps. Waits are a counter, a precondition, or a call that never returns.
- The H.264 decoder. It is an oracle returning an image or nothing. Its RGB buffer is taken to hold exactly width * height * 3 bytes.
- The autogenerated population of the callback map (bebop.cpp:197-200). Those generated headers are not part of this model. The model installs a given table, replacing the previous one.
- The per-command `CommandBase::Update` routines. They are not part of this model. A handler just records the latest arguments and time.
- Logging, the static "LWP id printed" flags, `BatteryStateChangedCallback`, the constructor's print-callback redirection and the destructor's last-resort frees (bebop.cpp:130-137).
- The exception message strings of `Connect` and the SDK error-to-string conversion. Failures are an enumeration carrying the status.
- Bebop.Move: uses real arithmetic. It does not model IEEE rounding or the conversion of the scaled axes into the PCMD argument types.
- Bebop.MoveCamera: sends the tilt and pan in degrees. It does not model the `static_cast<int8_t>` conversion, which is undefined for out-of-range values.
- Frames.Read: computes width * height * 3 without the 32-bit wrap of `num_bytes`. The wrap needs a frame of at least 2^32/3 pixels; with a decoder that reports the forced 640 x 368 it cannot occur.
- Frames.Receive: does not record the "previous frame might have been missed" warning. That warning is logging only.
- Bebop.Connect: for a driver that was not connected, does not characterise when a failing Connect blocks rather than throws, nor the spare count of the destroyed semaphore after a throw. Blocking happens only when the Cleanup it runs waits with no confirming callback, as stated on `Bebop.Cleanup` and `Bebop.Abort`; on a connected driver Connect is exactly `Bebop.Abort`.
- The link between the controller handle and a STARTING/RUNNING/STOPPING `deviceState` holds in one direction only: `Sessions.Inv` gives controller ⟹ RUNNING. After a Disconnect the stored state can still be RUNNING with no controller (`Sessions.DisconnectKeepsRunningState`).
- Frames.Forced: the callback writes 640 and 368 into the SDK-owned frame descriptor itself, so the SDK sees the change after the callback returns. The model only hands the decoder a resized copy and does not model that write into the SDK's descriptor.

=== FILE: bebop.dfy ===
/** The driver object itself: its connection lifecycle (Connect, Cleanup,
    Disconnect), the gate in front of every vehicle command, and the SDK
    callbacks, each as a pure transition of an immutable driver record.

    Every SDK call is replaced by the status it returns, supplied in an
    environment record. The state-confirmation semaphore is a counter: a
    wait on a zero count is a call that never returns (`Blocked`), and the
    state callbacks the SDK delivers while the caller waits are part of the
    environment. */
module Bebop {
  import opened Sdk
  import opened Piloting
  import Frames
  import Dispatch

  /** The driver's fields.
      - isConnected: the driver's own "connected" flag
      - discoveryDevice / controller: the discovery device and device
        controller handles are non-NULL
      - lastError / deviceState: the last error code and device state the
        driver stored
      - semLive / semCount: the confirmation semaphore is initialized, and
        its count
      - handlers: the command dispatch table
      - slot: the video frame slot */
  datatype Driver = Driver(
    isConnected: bool,
    discoveryDevice: bool,
    controller: bool,
    lastError: Status,
    deviceState: DeviceState,
    semLive: bool,
    semCount: nat,
    handlers: Dispatch.Table,
    slot: Frames.Slot)

  /** The freshly constructed driver. */
  function Initial(): (d: Driver)
    ensures !d.isConnected && !d.controller && !d.discoveryDevice && !d.semLive
    ensures d.deviceState == Max && d.lastError == Ok && !d.slot.available
    ensures d.handlers == map[] && d.slot == Frames.EmptySlot()
  {
    Driver(false, false, false, Ok, Max, false, 0, map[], Frames.EmptySlot())
  }

  /** Why a driver call threw. */
  datatype Failure =
    | AlreadyInited
    | DiscoveryFailed(status: Status)
    | ControllerCreationFailed(status: Status)
    | StateCallbackRegistrationFailed(status: Status)
    | CommandCallbackRegistrationFailed(status: Status)
    | VideoCallbackRegistrationFailed(status: Status)
    | ControllerStartFailed(status: Status)
    | WaitingForDeviceFailed(status: Status)
    | VideoStreamFailed(status: Status)
    | NotConnected(message: string)

  /** How a driver call ended: it returned, it threw, or it waits forever on
      the semaphore (at the given state). */
  datatype Call<T> =
    | Returned(value: T, after: Driver)
    | Threw(failure: Failure, after: Driver)
    | Blocked(at: Driver)
  {
    function Final(): Driver
    {
      match this
      case Returned(_, d) => d
      case Threw(_, d) => d
      case Blocked(d) => d
    }
  }

  // ---------------------------------------------------------------------
  // The confirmation semaphore

  function SemInit(s: Driver): Driver
  {
    s.(semLive := true, semCount := 0)
  }

  /** A wait takes one count, or does not return while the count is zero. */
  function SemWait(s: Driver): (r: Option<Driver>)
    ensures r.None? <==> s.semCount == 0
    ensures r.Some? ==> r.value.semCount + 1 == s.semCount && r.value == s.(semCount := r.value.semCount)
  {
    if s.semCount == 0 then None else Some(s.(semCount := s.semCount - 1))
  }

  // ---------------------------------------------------------------------
  // The state-changed callback

  /** The two states the SDK confirms a requested transition with. */
  predicate Confirms(state: DeviceState)
  {
    state == Running || state == Stopped
  }

  /** The state-changed callback: it posts the semaphore for RUNNING and
      STOPPED and ignores every other state; it stores nothing. */
  function StateChanged(s: Driver, state: DeviceState): (r: Driver)
    ensures Confirms(state) ==> r.semCount == s.semCount + 1
    ensures !Confirms(state) ==> r == s
    ensures r == s.(semCount := r.semCount)
  {
    match state
    case Stopped => s.(semCount := s.semCount + 1)
    case Running => s.(semCount := s.semCount + 1)
    case _ => s
  }

  /** Reference count: how many of the states confirm a transition. */
  function Posts(states: seq<DeviceState>): nat
  {
    if |states| == 0 then 0
    else (if Confirms(states[0]) then 1 else 0) + Posts(states[1..])
  }

  /** A run of state callbacks, oldest first, raises the count by exactly
      the number of confirming states and changes nothing else. */
  function Deliver(s: Driver, states: seq<DeviceState>): (r: Driver)
    ensures r == s.(semCount := s.semCount + Posts(states))
    decreases |states|
  {
    if |states| == 0 then s
    else Deliver(StateChanged(s, states[0]), states[1..])
  }

  // ---------------------------------------------------------------------
  // Cleanup

  /** SDK outcomes seen by Cleanup: the state query, the stop request, and
      the state callbacks delivered while it waits for the stop. */
  datatype CleanupEnv = CleanupEnv(
    getState: Status,
    reportedState: DeviceState,
    stop: Status,
    stopEvents: seq<DeviceState>)

  /** What Cleanup did: whether it asked the device to stop, and whether it
      then waited for the confirmation. */
  datatype CleanupReport = CleanupReport(stopRequested: bool, waited: bool)

  /** Cleanup leaves no controller and a destroyed semaphore. A stop is
      requested only if the controller exists, the state query succeeded
      and the device is not already stopped; the driver waits for the
      confirmation only if the stop request returned OK. */
  function Cleanup(s: Driver, env: CleanupEnv): (r: Call<CleanupReport>)
    ensures !r.Threw?
    ensures r.Returned? ==> !r.after.controller && !r.after.semLive
    ensures r.Returned? ==>
              (r.value.stopRequested <==> s.controller && env.getState.Ok? && env.reportedState != Stopped)
    ensures r.Returned? ==> (r.value.waited <==> r.value.stopRequested && env.stop.Ok?)
    ensures r.Blocked? <==>
              s.controller && env.getState.Ok? && env.reportedState != Stopped && env.stop.Ok?
              && s.semCount + Posts(env.stopEvents) == 0
    ensures r.Returned? && r.value.waited ==> r.after.semCount + 1 == s.semCount + Posts(env.stopEvents)
    ensures r.Returned? && !r.value.waited ==> r.after.semCount == s.semCount
    ensures r.Final().isConnected == s.isConnected && r.Final().discoveryDevice == s.discoveryDevice
    ensures r.Final().handlers == s.handlers && r.Final().slot == s.slot
    ensures r.Final().deviceState == (if s.controller then env.reportedState else s.deviceState)
    ensures r.Final().lastError ==
              (if !s.controller then s.lastError
               else if env.getState.Ok? && env.reportedState != Stopped then env.stop
               else env.getState)
  {
    if !s.controller then
      Returned(CleanupReport(false, false), s.(semLive := false))
    else
      var queried := s.(lastError := env.getState, deviceState := env.reportedState);
      if env.getState.Ok? && env.reportedState != Stopped then
        var stopping := queried.(lastError := env.stop);
        if env.stop.Ok? then
          match SemWait(Deliver(stopping, env.stopEvents))
          case None => Blocked(Deliver(stopping, env.stopEvents))
          case Some(woken) =>
            Returned(CleanupReport(true, true), woken.(controller := false, semLive := false))
        else
          Returned(CleanupReport(true, false), stopping.(controller := false, semLive := false))
      else
        Returned(CleanupReport(false, false), queried.(controller := false, semLive := false))
  }

  // ---------------------------------------------------------------------
  // Connect

  /** SDK outcomes seen by Connect, in call order, plus the state callbacks
      delivered until the confirmation wait ends and the dispatch table the
      generated registration code installs. */
  datatype ConnectEnv = ConnectEnv(
    discoveryNew: Status,
    initWifi: Status,
    controllerNew: Status,
    addStateCallback: Status,
    addCommandCallback: Status,
    setVideoCallback: Status,
    start: Status,
    startEvents: seq<DeviceState>,
    getState: Status,
    reportedState: DeviceState,
    videoEnable: Status,
    table: Dispatch.Table)

  /** Every step of the connection sequence goes through. */
  predicate AllStepsSucceed(env: ConnectEnv)
  {
    && env.discoveryNew.Ok? && env.initWifi.Ok? && env.controllerNew.Ok?
    && env.addStateCallback.Ok? && env.addCommandCallback.Ok? && env.setVideoCallback.Ok?
    && env.start.Ok? && Posts(env.startEvents) > 0
    && env.getState.Ok? && env.reportedState == Running
    && env.videoEnable.Ok?
  }

  /** The failure the first failing step of the connection sequence
      throws, in source order. None when every step succeeds, and also
      when no confirming callback arrives, since Connect then never gets
      past the wait. */
  function FirstFailure(env: ConnectEnv): Option<Failure>
  {
    if env.discoveryNew.Error? then Some(DiscoveryFailed(env.discoveryNew))
    else if env.initWifi.Error? then Some(DiscoveryFailed(env.initWifi))
    else if env.controllerNew.Error? then Some(ControllerCreationFailed(env.controllerNew))
    else if env.addStateCallback.Error? then Some(StateCallbackRegistrationFailed(env.addStateCallback))
    else if env.addCommandCallback.Error? then Some(CommandCallbackRegistrationFailed(env.addCommandCallback))
    else if env.setVideoCallback.Error? then Some(VideoCallbackRegistrationFailed(env.setVideoCallback))
    else if env.start.Error? then Some(ControllerStartFailed(env.start))
    else if Posts(env.startEvents) == 0 then None
    else if env.getState.Error? || env.reportedState != Running then Some(WaitingForDeviceFailed(env.getState))
    else if env.videoEnable.Error? then Some(VideoStreamFailed(env.videoEnable))
    else None
  }

  /** The first three steps went through, so a controller was created and
      the Cleanup that follows any later failure finds it. */
  predicate ControllerCreated(env: ConnectEnv)
  {
    env.discoveryNew.Ok? && env.initWifi.Ok? && env.controllerNew.Ok?
  }

  /** A throw inside Connect: Cleanup runs, then the failure propagates. */
  function Abort(s: Driver, failure: Failure, env: CleanupEnv): (r: Call<()>)
    ensures r.Threw? ==> r.failure == failure && !r.after.controller && !r.after.semLive
    ensures r.Threw? <==> Cleanup(s, env).Returned?
    ensures Cleanup(s, env).Returned? ==> r == Threw(failure, Cleanup(s, env).after)
    ensures Cleanup(s, env).Blocked? ==> r == Blocked(Cleanup(s, env).at)
    ensures r.Final().isConnected == s.isConnected && r.Final().slot == s.slot
  {
    match Cleanup(s, env)
    case Returned(_, d) => Threw(failure, d)
    case Blocked(d) => Blocked(d)
  }

  /** Connect succeeds exactly when the driver is not connected and every
      step succeeds; only then is the connected flag raised. Any failure,
      including a second Connect, runs Cleanup before it is rethrown, so a
      failed Connect leaves no controller and the flag as it was. */
  function Connect(s: Driver, env: ConnectEnv, onFailure: CleanupEnv): (r: Call<()>)
    ensures r.Returned? <==> !s.isConnected && AllStepsSucceed(env)
    ensures r.Returned? ==>
              && r.after.isConnected && r.after.controller && !r.after.discoveryDevice
              && r.after.deviceState == Running && r.after.lastError == Ok
              && r.after.semLive && r.after.semCount + 1 == Posts(env.startEvents)
              && r.after.handlers == env.table
    ensures r.Threw? ==> !r.after.controller && !r.after.semLive && r.after.isConnected == s.isConnected
    ensures r.Threw? && s.isConnected ==> r.failure == AlreadyInited
    ensures s.isConnected ==> r == Abort(s, AlreadyInited, onFailure)
    ensures r.Threw? && !s.isConnected && ControllerCreated(env) ==>
              && r.after.deviceState == onFailure.reportedState
              && r.after.lastError ==
                   (if onFailure.getState.Ok? && onFailure.reportedState != Stopped then onFailure.stop
                    else onFailure.getState)
    ensures r.Threw? && !s.isConnected && !s.controller && !ControllerCreated(env) ==>
              && r.after.deviceState == s.deviceState
              && r.after.lastError ==
                   (if env.discoveryNew.Ok? && env.initWifi.Ok? then env.controllerNew else s.lastError)
    ensures r.Threw? && !s.isConnected ==> FirstFailure(env) == Some(r.failure)
    ensures r.Threw? ==> r.after.handlers == s.handlers
    ensures r.Threw? && !s.isConnected ==>
              (r.after.discoveryDevice <==> env.discoveryNew.Ok? && (env.initWifi.Error? || env.controllerNew.Error?))
    ensures r.Final().slot == s.slot
  {
    if s.isConnected then Abort(s, AlreadyInited, onFailure)
    else
      var s0 := SemInit(s);
      if env.discoveryNew.Error? then
        Abort(s0.(discoveryDevice := false), DiscoveryFailed(env.discoveryNew), onFailure)
      else
        var s1 := s0.(discoveryDevice := true);
        if env.initWifi.Error? then Abort(s1, DiscoveryFailed(env.initWifi), onFailure)
        else
          var s2 := s1.(lastError := env.controllerNew, controller := env.controllerNew.Ok?);
          if env.controllerNew.Error? then Abort(s2, ControllerCreationFailed(env.controllerNew), onFailure)
          else
            var s3 := s2.(discoveryDevice := false);
            if env.addStateCallback.Error? then
              Abort(s3, StateCallbackRegistrationFailed(env.addStateCallback), onFailure)
            else if env.addCommandCallback.Error? then
              Abort(s3, CommandCallbackRegistrationFailed(env.addCommandCallback), onFailure)
            else if env.setVideoCallback.Error? then
              Abort(s3, VideoCallbackRegistrationFailed(env.setVideoCallback), onFailure)
            else if env.start.Error? then
              Abort(s3, ControllerStartFailed(env.start), onFailure)
            else
              match SemWait(Deliver(s3, env.startEvents))
              case None => Blocked(Deliver(s3, env.startEvents))
              case Some(woken) =>
                var s4 := woken.(lastError := env.getState, deviceState := env.reportedState);
                if env.getState.Error? || env.reportedState != Running then
                  Abort(s4, WaitingForDeviceFailed(env.getState), onFailure)
                else if env.videoEnable.Error? then
                  Abort(s4, VideoStreamFailed(env.videoEnable), onFailure)
                else
                  Returned((), s4.(handlers := env.table, isConnected := true))
  }

  // ---------------------------------------------------------------------
  // Disconnect

  /** Disconnect returns false and changes nothing when the driver is not
      connected; otherwise it runs Cleanup and returns true. It never
      lowers the connected flag. */
  function Disconnect(s: Driver, env: CleanupEnv): (r: Call<bool>)
    ensures !r.Threw?
    ensures !s.isConnected ==> r == Returned(false, s)
    ensures s.isConnected && r.Returned? ==>
              r.value && !r.after.controller && !r.after.semLive && r.after.isConnected
    ensures s.isConnected ==> (r.Returned? <==> Cleanup(s, env).Returned?)
    ensures s.isConnected && Cleanup(s, env).Returned? ==> r == Returned(true, Cleanup(s, env).after)
  {
    if !s.isConnected then Returned(false, s)
    else
      match Cleanup(s, env)
      case Returned(_, d) => Returned(true, d)
      case Blocked(d) => Blocked(d)
  }

  // ---------------------------------------------------------------------
  // Command gating and issuance

  /** The internal-error check: a command may go out only when the driver
      is flagged connected and holds a controller. */
  function InternalCheck(s: Driver, message: string): (r: Option<Failure>)
    ensures r.None? <==> s.isConnected && s.controller
    ensures r.Some? ==> r.value == NotConnected(message)
  {
    if !s.isConnected || !s.controller then Some(NotConnected(message)) else None
  }

  /** The outcome of a vehicle command: refused before anything is sent,
      or sent with the status the SDK returned. Any non-OK status makes
      the call throw. */
  datatype Issue = Refused(failure: Failure) | Sent(command: PilotCommand, status: Status)
  {
    predicate Succeeded()
    {
      Sent? && status.Ok?
    }
  }

  function IssueCommand(s: Driver, message: string, command: PilotCommand, status: Status): (r: Issue)
    ensures r.Sent? <==> s.isConnected && s.controller
    ensures r.Refused? ==> r.failure == NotConnected(message)
    ensures r.Sent? ==> r.command == command && r.status == status
    ensures r.Succeeded() <==> s.isConnected && s.controller && status.Ok?
  {
    match InternalCheck(s, message)
    case Some(f) => Refused(f)
    case None => Sent(command, status)
  }

  function Takeoff(s: Driver, status: Status): (r: Issue)
    ensures r.Sent? <==> s.isConnected && s.controller
    ensures r.Sent? ==> r.command == TakeOff && r.status == status
    ensures r.Refused? ==> r.failure == NotConnected("Takeoff failed")
    ensures r.Succeeded() <==> s.isConnected && s.controller && status.Ok?
  {
    IssueCommand(s, "Takeoff failed", TakeOff, status)
  }

  function Land(s: Driver, status: Status): (r: Issue)
    ensures r.Sent? <==> s.isConnected && s.controller
    ensures r.Sent? ==> r.command == Landing && r.status == status
    ensures r.Refused? ==> r.failure == NotConnected("Land failed")
    ensures r.Succeeded() <==> s.isConnected && s.controller && status.Ok?
  {
    IssueCommand(s, "Land failed", Landing, status)
  }

  /** Move sends the hover command exactly when every axis is negligible,
      and otherwise the scaled axes with the roll/pitch flag. */
  function Move(s: Driver, roll: real, pitch: real, gaz: real, yaw: real, status: Status): (r: Issue)
    ensures r.Sent? <==> s.isConnected && s.controller
    ensures r.Refused? ==> r.failure == NotConnected("Move failure")
    ensures r.Sent? ==>
              (r.command == Hover <==> Negligible(roll) && Negligible(pitch) && Negligible(yaw) && Negligible(gaz))
    ensures r.Sent? ==> r.status == status
    ensures r.Sent? && r.command != Hover ==>
              r.command == Pcmd(Abs(roll) >= Threshold || Abs(pitch) >= Threshold,
                                roll * Scale, pitch * Scale, yaw * Scale, gaz * Scale, 0.0)
    ensures r.Succeeded() <==> s.isConnected && s.controller && status.Ok?
  {
    IssueCommand(s, "Move failure", MoveCommand(roll, pitch, gaz, yaw), status)
  }

  function MoveCamera(s: Driver, tilt: real, pan: real, status: Status): (r: Issue)
    ensures r.Sent? <==> s.isConnected && s.controller
    ensures r.Sent? ==> r.command == CameraOrientation(tilt, pan) && r.status == status
    ensures r.Refused? ==> r.failure == NotConnected("Camera Move Failure")
    ensures r.Succeeded() <==> s.isConnected && s.controller && status.Ok?
  {
    IssueCommand(s, "Camera Move Failure", CameraOrientation(tilt, pan), status)
  }

  // ---------------------------------------------------------------------
  // The other two callbacks, on the driver record

  function CommandReceived(s: Driver, key: Dispatch.CommandKey, dict: Option<Dispatch.Dictionary>,
                           now: Dispatch.Time): (r: Driver)
    ensures r == s.(handlers := r.handlers)
    ensures r.handlers == Dispatch.Receive(s.handlers, key, dict, now)
  {
    s.(handlers := Dispatch.Receive(s.handlers, key, dict, now))
  }

  function FrameReceived(s: Driver, frame: Option<Frames.RawFrame>, decode: Frames.Decoder): (r: Driver)
    ensures r == s.(slot := r.slot)
    ensures r.slot == Frames.Receive(s.slot, frame, decode)
  {
    s.(slot := Frames.Receive(s.slot, frame, decode))
  }

  // ---------------------------------------------------------------------
  // Properties relating several calls

  /** Disconnect never clears the connected flag, so once a driver has been
      connected every later Disconnect that returns reports true, and a
      command after it is still refused, through the missing controller. */
  lemma SecondDisconnectStillTrue(s: Driver, first: CleanupEnv, second: CleanupEnv, status: Status)
    requires s.isConnected
    requires Disconnect(s, first).Returned?
    ensures Disconnect(Disconnect(s, first).after, second) == Returned(true, Disconnect(s, first).after.(semLive := false))
    ensures Takeoff(Disconnect(s, first).after, status) == Refused(NotConnected("Takeoff failed"))
  {
    var d := Disconnect(s, first).after;
    assert Cleanup(d, second) == Returned(CleanupReport(false, false), d.(semLive := false));
  }

  /** Calling Connect on a connected driver tears the session down: Cleanup
      runs first, then the call throws, leaving exactly the driver Cleanup
      leaves with the flag still raised, so commands are refused. */
  lemma ReconnectTearsDown(s: Driver, env: ConnectEnv, onFailure: CleanupEnv, status: Status)
    requires s.isConnected
    requires !Connect(s, env, onFailure).Blocked?
    ensures Connect(s, env, onFailure).Threw?
    ensures Connect(s, env, onFailure).failure == AlreadyInited
    ensures Connect(s, env, onFailure) == Threw(AlreadyInited, Cleanup(s, onFailure).after)
    ensures Connect(s, env, onFailure).after.isConnected
    ensures Takeoff(Connect(s, env, onFailure).after, status).Refused?
  {
  }

  /** A Connect that fails on a driver that is not connected leaves it in a
      state from which a Connect whose steps all succeed goes through. */
  lemma RetryAfterFailedConnect(s: Driver, env: ConnectEnv, onFailure: CleanupEnv,
                                retry: ConnectEnv, retryFailure: CleanupEnv)
    requires !s.isConnected
    requires Connect(s, env, onFailure).Threw?
    requires AllStepsSucceed(retry)
    ensures Connect(Connect(s, env, onFailure).after, retry, retryFailure).Returned?
  {
  }

  /** A failed Wi-Fi initialization is thrown without freeing the discovery
      device: Cleanup only releases the controller and the semaphore. */
  lemma WifiFailureKeepsDiscoveryDevice(s: Driver, env: ConnectEnv, onFailure: CleanupEnv)
    requires !s.isConnected && !s.controller
    requires env.discoveryNew.Ok? && env.initWifi.Error?
    ensures Connect(s, env, onFailure).Threw?
    ensures Connect(s, env, onFailure).failure == DiscoveryFailed(env.initWifi)
    ensures Connect(s, env, onFailure).after.discoveryDevice
  {
  }

  /** Connect with no confirming state callback delivered until the wait
      ends never returns, whatever the other outcomes. */
  lemma NoConfirmationBlocksConnect(s: Driver, env: ConnectEnv, onFailure: CleanupEnv)
    requires !s.isConnected
    requires env.discoveryNew.Ok? && env.initWifi.Ok? && env.controllerNew.Ok?
    requires env.addStateCallback.Ok? && env.addCommandCallback.Ok? && env.setVideoCallback.Ok?
    requires env.start.Ok? && Posts(env.startEvents) == 0
    ensures Connect(s, env, onFailure).Blocked?
  {
  }
}

=== FILE: dispatch.dfy ===
/** The command-received callback and the table it routes into: a map from
    the SDK's command key to the handler that keeps the latest value seen
    for that command. */
module Dispatch {
  import opened Sdk

  /** The SDK's dictionary key enumeration value naming a command. */
  type CommandKey = nat

  /** Capture time handed to a handler (the middleware clock, a parameter). */
  type Time = int

  datatype ArgValue = IntArg(i: int) | RealArg(r: real) | TextArg(t: string)

  /** The argument set of one dictionary element. */
  type Arguments = map<string, ArgValue>

  /** The key under which the SDK files a command that has one argument set. */
  const SingleKey: string := "ARCONTROLLER_DICTIONARY_SINGLE_KEY"

  /** One element of the SDK's hashed dictionary. */
  datatype Element = Element(key: string, arguments: Arguments)

  /** A non-NULL dictionary, in the hash's iteration order: its head
      (index 0) is the element the dictionary pointer points at. */
  type Dictionary = d: seq<Element> | |d| > 0 witness [Element(SingleKey, map[])]

  /** A handler and the most recent arguments it has been given. */
  datatype Handler = Handler(latest: Option<Arguments>, stamp: Time)

  type Table = map<CommandKey, Handler>

  /** A handler's update routine: it keeps the newest arguments. */
  function Update(h: Handler, args: Arguments, now: Time): (r: Handler)
    ensures r.latest == Some(args) && r.stamp == now
  {
    h.(latest := Some(args), stamp := now)
  }

  predicate HasSingleKey(d: Dictionary)
  {
    exists i :: 0 <= i < |d| && d[i].key == SingleKey
  }

  /** The callback forwards to a handler only for a non-NULL dictionary
      that holds the single key, under a registered command key. */
  predicate Forwards(table: Table, key: CommandKey, dict: Option<Dictionary>)
  {
    dict.Some? && HasSingleKey(dict.value) && key in table
  }

  /** The command-received callback. The arguments passed on are those of
      the dictionary's head element. */
  function Receive(table: Table, key: CommandKey, dict: Option<Dictionary>, now: Time): (r: Table)
    ensures r.Keys == table.Keys
    ensures forall k :: k in table && k != key ==> r[k] == table[k]
    ensures !Forwards(table, key, dict) ==> r == table
    ensures Forwards(table, key, dict) ==>
              r[key].latest == Some(dict.value[0].arguments) && r[key].stamp == now
  {
    if dict.Some? && HasSingleKey(dict.value) && key in table then
      table[key := Update(table[key], dict.value[0].arguments, now)]
    else table
  }

  /** A NULL dictionary, a dictionary without the single key, or a key with
      no registered handler changes nothing, whatever the clock says. */
  lemma IgnoredCallbacks(table: Table, key: CommandKey, dict: Option<Dictionary>, now: Time)
    ensures dict.None? ==> Receive(table, key, dict, now) == table
    ensures dict.Some? && !HasSingleKey(dict.value) ==> Receive(table, key, dict, now) == table
    ensures key !in table ==> Receive(table, key, dict, now) == table
  {
  }

  /** Callbacks for different commands commute: each touches only its own
      handler. */
  lemma DistinctKeysCommute(table: Table, k1: CommandKey, d1: Option<Dictionary>, t1: Time,
                             k2: CommandKey, d2: Option<Dictionary>, t2: Time)
    requires k1 != k2
    ensures Receive(Receive(table, k1, d1, t1), k2, d2, t2) == Receive(Receive(table, k2, d2, t2), k1, d1, t1)
  {
  }
}

=== FILE: frames.dfy ===
/** The single-slot, latest-value-wins hand-off between the SDK's video
    reader thread (the frame callback) and a consumer reading the front
    camera. Each callback is one atomic step on the slot; the H.264 decoder is
    an oracle from raw frame descriptors to decoded images. */
module Frames {
  import opened Sdk

  /** The callback overrides whatever size the SDK declares with these. */
  const ForcedWidth: nat := 640
  const ForcedHeight: nat := 368

  /** A raw (encoded) frame descriptor as delivered by the SDK. */
  datatype RawFrame = RawFrame(width: nat, height: nat, data: seq<byte>)

  /** A decoded picture: packed RGB, three bytes per pixel. */
  datatype Picture = Picture(width: nat, height: nat, rgb: seq<byte>)

  /** The decoder keeps an RGB buffer sized to its current frame. */
  type Image = p: Picture | |p.rgb| == p.width * p.height * 3 witness Picture(0, 0, [])

  /** The decoder: a successful decode yields the new current image. */
  type Decoder = RawFrame -> Option<Image>

  /** `available` is the "frame available" flag; `image` is the decoder's
      current frame, which a read copies out. */
  datatype Slot = Slot(available: bool, image: Image)

  function EmptySlot(): (r: Slot)
    ensures !r.available && |r.image.rgb| == 0
  {
    Slot(false, Picture(0, 0, []))
  }

  /** The descriptor the decoder is actually given: same payload, fixed size. */
  function Forced(f: RawFrame): (g: RawFrame)
    ensures g.width == ForcedWidth && g.height == ForcedHeight
    ensures g.data == f.data
  {
    f.(width := ForcedWidth, height := ForcedHeight)
  }

  /** What one callback invocation decodes: nothing for a NULL frame. */
  function Decoded(frame: Option<RawFrame>, decode: Decoder): Option<Image>
  {
    match frame
    case None => None
    case Some(f) => decode(Forced(f))
  }

  /** The frame-received callback. A NULL frame or a failed decode leaves
      the slot as it was; a successful decode replaces the image, dropping
      any frame not yet read, and raises the flag. */
  function Receive(slot: Slot, frame: Option<RawFrame>, decode: Decoder): (r: Slot)
    ensures frame.None? ==> r == slot
    ensures frame.Some? && decode(Forced(frame.value)).None? ==> r == slot
    ensures frame.Some? && decode(Forced(frame.value)).Some? ==>
              r.available && r.image == decode(Forced(frame.value)).value
  {
    match Decoded(frame, decode)
    case None => slot
    case Some(img) => Slot(true, img)
  }

  /** What a read hands back: a copy of the pixels and the frame size. */
  datatype Capture = Capture(buffer: seq<byte>, width: nat, height: nat)

  /** The front-camera read. The blocking wait for a frame is the
      precondition; the read copies width * height * 3 bytes out of the
      decoder's buffer and lowers the flag, leaving the image in place. */
  function Read(slot: Slot): (r: (Capture, Slot))
    requires slot.available
    ensures |r.0.buffer| == r.0.width * r.0.height * 3
    ensures r.0.width == slot.image.width && r.0.height == slot.image.height
    ensures r.0.buffer == slot.image.rgb
    ensures !r.1.available && r.1.image == slot.image
  {
    var n := slot.image.width * slot.image.height * 3;
    (Capture(slot.image.rgb[..n], slot.image.width, slot.image.height), slot.(available := false))
  }

  /** A run of callbacks with no read in between, oldest first. */
  function ReceiveAll(slot: Slot, frames: seq<Option<RawFrame>>, decode: Decoder): Slot
  {
    if |frames| == 0 then slot
    else Receive(ReceiveAll(slot, frames[..|frames| - 1], decode), frames[|frames| - 1], decode)
  }

  /** Reference definition: the most recent successfully decoded frame. */
  function LastDecoded(frames: seq<Option<RawFrame>>, decode: Decoder): Option<Image>
  {
    if |frames| == 0 then None
    else match Decoded(frames[|frames| - 1], decode)
      case Some(img) => Some(img)
      case None => LastDecoded(frames[..|frames| - 1], decode)
  }

  /** Latest value wins: after any run of callbacks the slot holds exactly
      the last successfully decoded frame, flagged available; if none
      decoded, the slot is untouched. Nothing older survives. */
  lemma {:induction false} ReceiveAllKeepsLatest(slot: Slot, frames: seq<Option<RawFrame>>, decode: Decoder)
    ensures LastDecoded(frames, decode).None? ==> ReceiveAll(slot, frames, decode) == slot
    ensures LastDecoded(frames, decode).Some? ==>
              ReceiveAll(slot, frames, decode) == Slot(true, LastDecoded(frames, decode).value)
  {
    if |frames| > 0 {
      ReceiveAllKeepsLatest(slot, frames[..|frames| - 1], decode);
    }
  }

  /** Two successful decodes before a read: the read returns only the
      second frame's pixels. */
  lemma SecondFrameWins(slot: Slot, f1: RawFrame, f2: RawFrame, decode: Decoder)
    requires decode(Forced(f1)).Some? && decode(Forced(f2)).Some?
    ensures Receive(Receive(slot, Some(f1), decode), Some(f2), decode).available
    ensures Read(Receive(Receive(slot, Some(f1), decode), Some(f2), decode)).0.buffer
            == decode(Forced(f2)).value.rgb
  {
  }

  /** A decoder that reports the size it was asked to decode at. */
  ghost predicate HonoursSize(decode: Decoder)
  {
    forall f :: decode(f).Some? ==> decode(f).value.width == f.width && decode(f).value.height == f.height
  }

  /** With such a decoder a successful callback followed by a read yields a
      640 x 368 frame of 640 * 368 * 3 bytes, whatever size the SDK declared. */
  lemma ReadAfterReceiveHasForcedSize(slot: Slot, f: RawFrame, decode: Decoder)
    requires HonoursSize(decode)
    requires decode(Forced(f)).Some?
    ensures Receive(slot, Some(f), decode).available
    ensures var c := Read(Receive(slot, Some(f), decode)).0;
            c.width == 640 && c.height == 368 && |c.buffer| == 706560
  {
  }
}

=== FILE: piloting.dfy ===
/** The commands the driver sends to the vehicle, and the translation of a
    normalized velocity intent into the piloting command (PCMD). Axes are
    real numbers; floating-point rounding is not modelled. */
module Piloting {

  /** Below this magnitude an axis counts as zero. */
  const Threshold: real := 0.001

  /** Normalized axes are sent as percentages. */
  const Scale: real := 100.0

  function Abs(x: real): (r: real)
    ensures r >= 0.0 && (r == x || r == -x)
  {
    if x < 0.0 then -x else x
  }

  predicate Negligible(x: real)
  {
    Abs(x) < Threshold
  }

  /** A command as handed to the SDK's send routine. A PCMD carries the
      roll/pitch flag, then roll, pitch, yaw and gaz, then a sixth argument
      that the driver always sends as zero. Camera angles are kept in
      degrees: the conversion to 8-bit integers is not modelled. */
  datatype PilotCommand =
    | TakeOff
    | Landing
    | Pcmd(flag: bool, roll: real, pitch: real, yaw: real, gaz: real, sixth: real)
    | CameraOrientation(tilt: real, pan: real)

  /** The explicit all-zero hover command. */
  const Hover: PilotCommand := Pcmd(false, 0.0, 0.0, 0.0, 0.0, 0.0)

  /** Encodes Move(roll, pitch, gaz, yaw); note that the PCMD puts yaw before
      gaz while the intent lists gaz first. */
  function MoveCommand(roll: real, pitch: real, gaz: real, yaw: real): (r: PilotCommand)
    ensures r.Pcmd?
    ensures r == Hover <==> Negligible(roll) && Negligible(pitch) && Negligible(yaw) && Negligible(gaz)
    ensures r.flag <==> Abs(roll) >= Threshold || Abs(pitch) >= Threshold
    ensures r != Hover ==> r.roll == roll * Scale && r.pitch == pitch * Scale
                           && r.yaw == yaw * Scale && r.gaz == gaz * Scale && r.sixth == 0.0
  {
    var doRollPitch := !(Negligible(roll) && Negligible(pitch));
    var doHover := !doRollPitch && Negligible(yaw) && Negligible(gaz);
    if doHover then Hover
    else Pcmd(doRollPitch, roll * Scale, pitch * Scale, yaw * Scale, gaz * Scale, 0.0)
  }

  /** An intent whose every axis is below the threshold is sent exactly as
      the all-zero intent is, e.g. a roll of 0.0005 alone. */
  lemma NegligibleIntentIsHover(roll: real, pitch: real, gaz: real, yaw: real)
    requires Negligible(roll) && Negligible(pitch) && Negligible(gaz) && Negligible(yaw)
    ensures MoveCommand(roll, pitch, gaz, yaw) == MoveCommand(0.0, 0.0, 0.0, 0.0) == Hover
  {
  }

  /** In the real-valued encoding, no command other than the hover command
      has all four axes zero. */
  lemma OnlyHoverIsAllZero(roll: real, pitch: real, gaz: real, yaw: real)
    ensures var c := MoveCommand(roll, pitch, gaz, yaw);
            c.roll == 0.0 && c.pitch == 0.0 && c.yaw == 0.0 && c.gaz == 0.0 <==> c == Hover
  {
  }
}

=== FILE: sdk.dfy ===
/** Vocabulary shared by the driver model: the abstract outcomes of vendor SDK
    calls and the device states the SDK reports. Every SDK call is reduced to
    the status it returns; what the call does inside the SDK is not modelled. */
module Sdk {

  /** An optional value: a callback argument that may be NULL (a frame, a
      dictionary), or a result that may be absent. */
  datatype Option<+T> = None | Some(value: T)

  newtype byte = x: int | 0 <= x < 256

  /** Return code of an SDK call: the OK value, or any other error code. */
  datatype Status = Ok | Error(code: int)

  /** The controller's device states, in the order of the SDK enumeration.
      `Max` is the sentinel the driver stores before any query. */
  datatype DeviceState = Stopped | Starting | Running | Paused | Stopping | Max
}

=== FILE: sessions.dfy ===
/** Whole sessions: any interleaving of caller operations and SDK callbacks,
    each an atomic step on the driver record, starting from a freshly
    constructed driver. A caller that catches an exception carries on; a
    call that waits forever ends the session. */
module Sessions {
  import opened Sdk
  import opened Bebop
  import Frames
  import Dispatch

  datatype Op =
    | ConnectOp(env: ConnectEnv, onFailure: CleanupEnv)
    | DisconnectOp(cleanup: CleanupEnv)
    | TakeoffOp(status: Status)
    | LandOp(status: Status)
    | MoveOp(roll: real, pitch: real, gaz: real, yaw: real, status: Status)
    | MoveCameraOp(tilt: real, pan: real, status: Status)
    | StateChangedOp(state: DeviceState)
    | CommandReceivedOp(key: Dispatch.CommandKey, dict: Option<Dispatch.Dictionary>, now: Dispatch.Time)
    | FrameReceivedOp(frame: Option<Frames.RawFrame>, decode: Frames.Decoder)
    | ReadFrameOp

  /** A session so far: still going, or stuck in a wait that never ends. */
  datatype Trace = Live(d: Driver) | Hung(d: Driver)

  /** One step. Commands do not change the driver record; a frame read with
      no frame available waits forever. */
  function Step(s: Driver, op: Op): Trace
  {
    match op
    case ConnectOp(env, onFailure) =>
      (match Connect(s, env, onFailure)
       case Blocked(d) => Hung(d)
       case Returned(_, d) => Live(d)
       case Threw(_, d) => Live(d))
    case DisconnectOp(env) =>
      (match Disconnect(s, env)
       case Blocked(d) => Hung(d)
       case Returned(_, d) => Live(d)
       case Threw(_, d) => Live(d))
    case TakeoffOp(_) => Live(s)
    case LandOp(_) => Live(s)
    case MoveOp(_, _, _, _, _) => Live(s)
    case MoveCameraOp(_, _, _) => Live(s)
    case StateChangedOp(state) => Live(StateChanged(s, state))
    case CommandReceivedOp(key, dict, now) => Live(CommandReceived(s, key, dict, now))
    case FrameReceivedOp(frame, decode) => Live(FrameReceived(s, frame, decode))
    case ReadFrameOp =>
      if s.slot.available then Live(s.(slot := Frames.Read(s.slot).1)) else Hung(s)
  }

  function Run(s: Driver, ops: seq<Op>): Trace
    decreases |ops|
  {
    if |ops| == 0 then Live(s)
    else match Step(s, ops[0])
      case Hung(d) => Hung(d)
      case Live(d) => Run(d, ops[1..])
  }

  /** The invariant of every state a session can be in between calls: a
      controller exists only on a connected driver whose device was
      confirmed RUNNING, with a live semaphore and the discovery device
      already released. */
  predicate Inv(s: Driver)
  {
    s.controller ==>
      s.isConnected && s.semLive && s.deviceState == Running && s.lastError == Ok && !s.discoveryDevice
  }

  lemma StepKeepsInv(s: Driver, op: Op)
    requires Inv(s)
    ensures Step(s, op).Live? ==> Inv(Step(s, op).d)
  {
  }

  lemma {:induction false} RunKeepsInv(s: Driver, ops: seq<Op>)
    requires Inv(s)
    ensures Run(s, ops).Live? ==> Inv(Run(s, ops).d)
    decreases |ops|
  {
    if |ops| > 0 {
      StepKeepsInv(s, ops[0]);
      if Step(s, ops[0]).Live? {
        RunKeepsInv(Step(s, ops[0]).d, ops[1..]);
      }
    }
  }

  /** In every session, a command that reaches the SDK finds the device
      confirmed RUNNING and the semaphore initialized. */
  lemma SentCommandsFindDeviceRunning(ops: seq<Op>, status: Status)
    requires Run(Initial(), ops).Live?
    ensures var d := Run(Initial(), ops).d;
            Takeoff(d, status).Sent? ==> d.deviceState == Running && d.semLive && !d.discoveryDevice
  {
    RunKeepsInv(Initial(), ops);
  }

  /** Between calls, a held controller comes with a live semaphore, so the
      Cleanup run by Disconnect, or by Connect on a connected driver, never
      waits on a destroyed semaphore. */
  lemma CleanupWaitsOnLiveSemaphore(ops: seq<Op>)
    requires Run(Initial(), ops).Live?
    requires Run(Initial(), ops).d.controller
    ensures Run(Initial(), ops).d.semLive
  {
    RunKeepsInv(Initial(), ops);
  }

  /** The stored device state is not cleared with the controller: Cleanup
      keeps the state it read before the stop, and the STOPPED confirmation
      is never stored, so after a Disconnect the driver can hold no
      controller and still record RUNNING. */
  lemma DisconnectKeepsRunningState(s: Driver, env: CleanupEnv)
    requires Inv(s) && s.controller
    requires env.getState == Ok && env.reportedState == Running && env.stop == Ok
    requires Posts(env.stopEvents) > 0
    ensures Disconnect(s, env).Returned?
    ensures !Disconnect(s, env).after.controller
    ensures Disconnect(s, env).after.deviceState == Running
  {
  }

  /** A Connect operation whose steps all go through. */
  predicate SucceedingConnect(op: Op)
  {
    op.ConnectOp? && AllStepsSucceed(op.env)
  }

  /** Without a Connect whose steps all succeed the driver never becomes
      connected, so every command is refused before anything is sent. */
  lemma {:induction false} NoCommandBeforeConnect(s: Driver, ops: seq<Op>)
    requires !s.isConnected
    requires forall i :: 0 <= i < |ops| ==> !SucceedingConnect(ops[i])
    ensures Run(s, ops).Live? ==> !Run(s, ops).d.isConnected
    ensures Run(s, ops).Live? ==> Takeoff(Run(s, ops).d, Ok).Refused? && Land(Run(s, ops).d, Ok).Refused?
    decreases |ops|
  {
    if |ops| > 0 {
      assert !SucceedingConnect(ops[0]);
      if Step(s, ops[0]).Live? {
        forall i | 0 <= i < |ops[1..]|
          ensures !SucceedingConnect(ops[1..][i])
        {
          assert ops[1..][i] == ops[i + 1];
        }
        NoCommandBeforeConnect(Step(s, ops[0]).d, ops[1..]);
      }
    }
  }
}
